=== FILE: README.md ===
# Air-conditioner panel: state and animation core

This project models the browser panel of the aircoserver remote control
(`js.js`) in Dafny and proves properties of the model. The panel shows the
unit's power, mode, temperature, fan speed and airflow. A server pushes the
device state over a WebSocket, and the user edits it by clicking. Under the
DOM and socket glue sits a small state machine, which is modelled here as
one immutable record with pure transition functions:

- **Lamps** (`lamps.dfy`): the page's indicator lamps are `ring_0`..`ring_4`,
  `dir_1`..`dir_6`, `boost` and the power button. "Lit" means the element
  carries the CSS class `active`. A lamp the page does not have can never be lit.
- **Timers** (`timers.dfy`): `setInterval`/`clearInterval` are modelled as a
  registry of every interval ever armed. A handle is a slot index, and clearing
  marks the slot dead. Because of this, "at most one timer per family" is a
  theorem about the registry. It is not built into the state's shape.
- **Cycles** (`cycles.dfy`): the tap rules. Fan speed goes 1→2→3→4→1, and an
  unset speed steps to 1. Airflow goes open→dir_1→…→dir_6→change→open. These
  lemmas prove the cycles close and that the switch agrees with the cycle read
  as a ring.
- **Panel** (`panel.dfy`): the `Ui` record. It holds `lastFanSpeed`,
  `fanSpeedIndex` and the fan handle, `lastAirflow`, `airflowIndex` and the
  airflow handle, the lit lamps, the selected mode and the temperature text.
  Its render functions are `setFanSpeed`, `setAirflow`, `setMode` and
  `setState`, plus the three interval callbacks as tick functions.
- **Controller** (`controller.dfy`): the server message handler, the click and
  edit handlers, and the `publishState` payload. A tick is an abstract event.
- **Invariants** (`invariants.dfy`): one invariant (`Wf`) holds in every
  reachable state. It keeps the cursors in range, gives each family at most one
  running interval, and makes the running interval match the value last shown.
  A fan speed other than 4 shows exactly its static rings.
- **Animations** (`animations.dfy`): what many ticks of each animation do.
  Each cursor walks its cycle, and each animation settles into a fixed period.
- **Scenarios** (`scenarios.dfy`): behaviours of the whole page. These cover
  click sequences, the message-then-publish round trip, and the hand-over
  between animations.

Values are kept exactly as they arrive on the wire. `lastFanSpeed` is
`Option<int>` and `lastAirflow` is `Option<string>`, where `None` is JSON
`null`. This keeps the source's behaviour exact:

- Fan speeds are never range-checked. A 7 from the server is rendered as rings
  0..4 and stepped to 8 by a tap (below 2^53; see "## Left out").
- Any `dir_`-prefixed airflow string clears the animation.
- An unrecognised airflow string is only recorded.
- A `null` airflow after a non-null one reaches `airflow.substr`, which throws.
  The model returns this as `Failure(NullAirflow)`. In `OnMessage` the
  temperature, mode, power and fan have already been applied when this happens.

Behaviours of the code worth knowing:

- `setFanSpeed(4)` followed by `setFanSpeed(2)` leaves `ring_1` lit, because
  the static level lights rings 0..2.
- Nothing validates incoming messages, and an update is not atomic when it
  throws.
- Phase 3 of the `open` animation lights every direction (the `.dir` selector),
  not only one marker.
- Unknown airflow values are recorded, not rejected, and the running airflow
  animation keeps going.
- Switching from `open` to a direction does not clear `boost`.
- Fan speeds are JavaScript numbers. From 2^53 on, `lastFanSpeed + 1` rounds
  back to the same value, so a tap no longer changes the speed. The ring loop
  `for (var i = 0; i <= fan; i++)` runs `fan + 1` times, and from 2^53 on it
  never ends, because `i++` stops changing `i`: the page hangs.
- The mode and the airflow are pasted into CSS selectors. A value with
  selector syntax in it can make the selector invalid, which throws, or can
  match lamps outside its own group.

## Model

| member | source | states |
|---|---|---|
| Lamps.RingsUpTo | js.js:110-113 | the static fan level `n` lights exactly the rings `i` with `0 <= i <= n` that the page has |
| Lamps.DirLamp | js.js:161-162 | `#airflow .<s>` lights direction `k` exactly when `s` is `dir_k`, and never lights more than one direction |
| Timers.SetInterval | js.js:93-107 | a new interval takes a fresh handle and runs the given callback, and earlier intervals are untouched |
| Timers.ClearInterval | js.js:91 | clearing stops only the interval behind the handle; an unset or unknown handle is ignored |
| Timers.SingleTimer | js.js:91-93 | if every running interval of a family sits behind one handle, then exactly that interval runs for the family, so at most one does |
| Cycles.NextFanSpeed | js.js:79-84 | 4 wraps to 1; a null speed steps to 1 (`null + 1`); on 1..4 this is the ring successor `v % 4 + 1`; every other speed steps up by one with no range check, as integers (the 2^53 limit of JavaScript numbers is under "## Left out") |
| Cycles.NextAirflow | js.js:49-75 | a tap gives a next value exactly when the current one is in the eight-value cycle, and that next value is in the cycle too |
| Cycles.AirflowTapFollowsCycle | js.js:50-75 | the switch moves from position `i` of open, dir_1..dir_6, change to position `i + 1`, wrapping after change |
| Cycles.FanTapsWalkCycle | js.js:79-84 | `n` taps from a speed `v` in 1..4 give `(v - 1 + n) % 4 + 1` |
| Cycles.FanCycleCloses | js.js:79-84 | four taps from any speed in 1..4 return to it, and one tap from null gives 1 |
| Cycles.AirflowTapsSplit | js.js:49-77 | `m` taps followed by `n` taps leave the same airflow as `m + n` taps |
| Cycles.AirflowCycleCloses | js.js:49-75 | eight taps from open return to open |
| Cycles.AirflowTapsPeriodic | js.js:49-75 | from open, the airflow after `n + 8` taps is the airflow after `n` taps |
| Cycles.AirflowTapsOutsideCycle | js.js:49-77 | from null or any value outside the cycle, taps never change the airflow |
| Panel.Init | js.js:2-8 | the page starts with fan and airflow null, both cursors at 1, no interval and nothing lit |
| Panel.SetFanSpeed | js.js:88-117 | the same speed again changes nothing. For 4, the old fan interval is stopped, the pulse is armed and ring_1 is added. For any other speed, the fan interval is stopped and the rings shown are exactly ring_0..ring_fan (null counts as 0). Every interval other than the fan's old one keeps running as it was. No other lamp and no airflow state changes |
| Panel.SetAirflow | js.js:119-166 | fails exactly for null after a non-null value. The same value changes nothing. `change` and `open` stop the old interval and arm their own. A `dir_` value stops it and shows exactly its own direction among the dirs. Any other string is only recorded. Only direction lamps can change. In every success the value becomes the last shown, and every interval other than the airflow's old one keeps running as it was |
| Panel.SetMode | js.js:168-171 | exactly the button for `mode` is selected if the page has one, otherwise none |
| Panel.SetState | js.js:173-179 | the power lamp is lit exactly for "on"; other lamps are unchanged |
| Panel.FanPulseTick | js.js:94-105 | from a cursor of at least 1 the new cursor is in 2..4, ring 2 is lit exactly when the new cursor is at least 3, ring 3 exactly when it is 4, and nothing else changes |
| Panel.AirflowChangeTick | js.js:124-131 | from a cursor of at least 1 the new cursor is in 2..7, exactly one direction is lit (the one just before the new cursor), and only the directions change |
| Panel.AirflowOpenTick | js.js:138-155 | from a cursor of at least 1 the new cursor is in 2..4. Phase 1 darkens boost and every direction, phase 2 lights boost, phase 3 lights every direction. Rings and power are untouched |
| Panel.Fire | js.js:93-107 | a cleared interval never runs its callback; a running interval runs its own tick (pulse, sweep or open); ticks never change targets or intervals |
| Controller.PublishState | js.js:181-193 | the payload's state is "on" exactly when power is lit, else "off". Its mode is the selected button, or "auto" when none is. Temperature, fan and airflow are the page's current values |
| Controller.Publish | js.js:181-193 | a local edit sends exactly one message, built from the state after the edit |
| Controller.OnMessage | js.js:16-26 | a server message sends nothing. It sets temperature, mode, power and fan from the message. A null airflow after a non-null one faults and keeps the old airflow; otherwise the airflow is set from the message |
| Controller.OnModeClick | js.js:35-40 | a mode click selects that mode, changes nothing else on the page, and publishes the whole new state once |
| Controller.OnTemperatureChange | js.js:42 | a committed temperature edit changes only the temperature and publishes the new value once |
| Controller.OnTemperatureBlur | js.js:34 | leaving the degrees input changes nothing and publishes the current state once |
| Controller.OnPowerClick | js.js:44-47 | a power click flips the power lamp, changes nothing else on the page, and publishes once with the new power state |
| Controller.OnAirflowClick | js.js:49-77 | an airflow click steps the airflow along the cycle, or leaves the whole page unchanged outside it, and publishes once either way. Fan, mode, temperature, every lamp other than the directions (rings, power and boost included) and every interval other than the airflow's old one stay as they were |
| Controller.OnFanSpeedClick | js.js:79-86 | a fan click shows the next fan speed (exactly rings 0..v and no fan interval for v other than 4; the pulse and ring_1 for 4) and publishes once with it. Airflow, mode, temperature, lamps other than rings, and every interval other than the fan's old one stay as they were |
| Controller.Handle | js.js:16-86 | server messages and ticks send nothing. Every local edit sends exactly the new state, once and without fault. Only a server message can fault |
| Invariants.InitWf | js.js:2-8 | the loaded page satisfies the invariant |
| Invariants.SingleTimerPerFamily | js.js:88-166 | under the invariant, the running fan intervals number 1 if the fan handle's interval runs and 0 otherwise, and the same holds for airflow |
| Invariants.SetFanSpeedWf | js.js:88-117 | `setFanSpeed` keeps the invariant |
| Invariants.SetAirflowWf | js.js:119-166 | a successful `setAirflow` keeps the invariant |
| Invariants.FireWf | js.js:94-155 | every tick keeps the invariant, so both cursors stay in range even when `open` inherits the sweep's cursor |
| Invariants.HandleWf | js.js:16-86 | every event keeps the invariant |
| Invariants.MessageFaultLeavesAirflow | js.js:16-26 | when a server message faults on its airflow, the airflow interval, its cursor and the direction and boost lamps are left as they were |
| Invariants.RunWf | js.js:16-86 | every sequence of events keeps the invariant |
| Invariants.ReachableSingleTimer | js.js:88-166 | after any events from page load, at most one fan and one airflow interval run, the fan cursor is in 1..4, the airflow cursor in 1..7, and the intervals match the values shown |
| Invariants.SentPerLocalEdit | js.js:16-86 | a sequence of events sends exactly one message per local edit |
| Invariants.SetFanSpeedTimers | js.js:88-117 | after `setFanSpeed`, exactly one fan interval runs for 4 and none otherwise, and the airflow intervals are unchanged |
| Invariants.SetAirflowTimers | js.js:119-166 | after `setAirflow`, one airflow interval runs for change and open, none for a direction, and the count is unchanged for an unrecognised value. Fan intervals are unchanged |
| Invariants.SettersIdempotent | js.js:88-179 | rendering the same fan speed, airflow, mode or power state twice equals rendering it once |
| Animations.FanPulseWalk | js.js:94-105 | `n` pulse ticks move the cursor `n` places round 2, 3, 4 (restarting at 4) and leave ring 2 lit from the second phase and ring 3 in the third; no other lamp changes |
| Animations.FanPulsePeriod | js.js:94-105 | after its first tick the pulse returns to the same state every three ticks |
| Animations.FanPulseFrame | js.js:94-105 | pulse ticks change only the lamps and the fan cursor |
| Animations.AirflowChangeWalk | js.js:124-131 | `n` sweep ticks leave exactly one direction lit, `n` places on round 1..6 (wrapping after 6), with the cursor just past it |
| Animations.AirflowChangePeriod | js.js:124-131 | after its first tick the sweep returns to the same state every six ticks |
| Animations.AirflowOpenWalk | js.js:138-155 | `n` open ticks move the cursor round 2, 3, 4. From the third tick on, the lamps are exactly the phase's, whatever was lit before |
| Animations.OpenTicksSplit | js.js:138-155 | one more open tick after `n` ticks is the same as `n + 1` ticks |
| Animations.AirflowOpenPeriod | js.js:138-155 | once a full round has run, the open animation returns to the same state every three ticks |
| Scenarios.FanClicks | js.js:79-86 | `n` fan clicks leave the speed `n` taps on and send `n` messages; the last carries the final speed |
| Scenarios.FourFanClicksCloseTheCycle | js.js:79-86 | four fan clicks from a speed in 1..4 return to it and publish four times |
| Scenarios.AirflowClicks | js.js:49-77 | `n` airflow clicks leave the airflow `n` taps on and send `n` messages |
| Scenarios.EightAirflowClicksCloseTheCycle | js.js:49-77 | eight airflow clicks from open return to open and publish eight times |
| Scenarios.AirflowClicksOutsideCycle | js.js:49-77 | from null or a value outside the cycle, any number of airflow clicks never change the airflow and still publish once each |
| Scenarios.MessageRoundTrip | js.js:16-26 | the next publish after a server message sends back exactly that message, when the message has no fault, its power is "on"/"off" and its mode has a button (or is "auto") |
| Scenarios.CoolMessageShown | js.js:16-26 | from any reachable page, including one already showing fan 3 or dir_2, the message on/cool/22/fan 3/dir_2 shows exactly that (rings 0..3, only direction 2, no interval) and sends nothing |
| Scenarios.MaxThenLowerStopsPulse | js.js:88-117 | from any reachable page, including one already at speed 4, speed 4 then 2 leaves no fan interval running and shows rings 0..2, so ring_1 stays lit |
| Scenarios.ChangeThenOpenLeavesOneTimer | js.js:119-158 | from any reachable page, including one already at change, change then open leaves one airflow interval (open) running, and a tick of the change interval's handle does nothing |
| Scenarios.BoostOutlivesOpen | js.js:159-163 | going from open to dir_3 stops the animation and shows only direction 3, but a lit boost stays lit |

## Left out

- The DOM is not modelled: `querySelector`, `addClass`/`removeClass` and
  selector strings (js.js:10-13, 195-205). Lamps are an abstract set. An
  airflow value that itself contains CSS selector syntax (say `dir_1, .boost`)
  is treated as a plain class name. An airflow value that makes the selector
  at js.js:162 invalid (say `dir_1]`) throws there. By then the interval has
  been cleared and the directions darkened, and `lastAirflow` is never
  updated. The model instead shows no direction and records the value.
- Panel.SetMode: the mode is pasted into the selector at js.js:170. A mode
  containing `"` makes that selector invalid, and the call throws after every
  mode button has been darkened (js.js:169). A crafted mode such as
  `x"], .boost, [x="` lights lamps outside the mode group. The model treats
  every mode as a plain name: it selects the button of that name or none.
- Controller.OnMessage: its fault is only the null-airflow throw. A mode with
  selector syntax that throws at js.js:170 would stop the handler at js.js:21,
  before power, fan and airflow are applied. The model applies them all and
  reports no fault. Selector parsing is part of the DOM, which is not modelled.
- Cycles.NextFanSpeed: the speed is an unbounded integer, not a JavaScript
  double. From 2^53 on, the source's `lastFanSpeed + 1` (js.js:83) rounds back
  to the same speed, so a tap re-renders nothing and re-sends the old speed.
  The model keeps adding one. Floating point is not modelled.
- Panel.SetFanSpeed: for a speed of 2^53 or more, the ring loop at js.js:111
  never ends and the page hangs. The model returns at once with rings 0..4
  lit. It also does not represent the run time of the loop, which is
  `fan + 1` iterations for a large speed.
- The page's markup is assumed to give every `ring_k` element the class
  `ring` and every `dir_k` element the class `dir`, which is what the
  `.ring` and `.dir` selectors rely on. The HTML is not part of this model.
- The mode buttons are a radio group, `activeMode: Option<string>`. The page
  is assumed to load with no mode, ring, direction, boost or power lit, since
  the HTML is not part of this model.
- The WebSocket connection, its URL, `onclose`/`onerror` logging, and
  `send` while the socket is not yet open (js.js:1, 15, 27-32) are I/O and are
  left out.
- JSON parsing and printing are not modelled. The message is already a record,
  so malformed JSON is left out. Fan values that are neither integers nor null
  are left out too (a string would concatenate under `+ 1`). So are mode or
  power values that are not strings.
- An airflow value that is neither a string nor null (a number, say) also
  throws at `airflow.substr` (js.js:159), as null does. Airflow is typed
  `Option<string>`, so this error path is not modelled.
- Scenarios.MessageRoundTrip: the echo is equal as a record only. The server
  sends the temperature as a JSON number, the page copies it into the degrees
  input (js.js:19), and `publishState` sends that input's text back
  (js.js:187). The model keeps the temperature as text throughout, so the
  number-versus-string change on the wire is not represented.
- The temperature is opaque text copied between the input and the messages.
  Its numeric bounds belong to the input widget.
- The 1000 ms cadence and real time are not modelled. A tick is an event, and
  ticks of different intervals may interleave in any order.

=== FILE: animations.dfy ===
/** The interval animations run for many ticks: the max-speed pulse, the
    `change` sweep and the `open` breathing walk their cursors round a fixed
    cycle, never leave their ranges, and settle into a fixed period. */
module Animations {
  import opened Lamps
  import opened Panel

  function FanPulseTicks(ui: Ui, n: nat): Ui
    decreases n
  {
    if n == 0 then ui else FanPulseTicks(FanPulseTick(ui), n - 1)
  }

  function AirflowChangeTicks(ui: Ui, n: nat): Ui
    decreases n
  {
    if n == 0 then ui else AirflowChangeTicks(AirflowChangeTick(ui), n - 1)
  }

  function AirflowOpenTicks(ui: Ui, n: nat): Ui
    decreases n
  {
    if n == 0 then ui else AirflowOpenTicks(AirflowOpenTick(ui), n - 1)
  }

  /** `n` pulse ticks move the cursor `n` places round 2, 3, 4 from where the
      first tick starts (a cursor of 4 or more starts again from 1), so ring 2
      is lit from the second phase on and ring 3 in the third */
  lemma {:induction false} FanPulseWalk(ui: Ui, n: nat)
    requires ui.fanSpeedIndex >= 1
    requires n >= 1
    ensures var r := FanPulseTicks(ui, n);
      && r.fanSpeedIndex == (PulseStep(ui.fanSpeedIndex) - 1 + n - 1) % 3 + 2
      && (Ring(2) in r.lit <==> r.fanSpeedIndex >= 3)
      && (Ring(3) in r.lit <==> r.fanSpeedIndex == 4)
      && r.lit - {Ring(2), Ring(3)} == ui.lit - {Ring(2), Ring(3)}
    decreases n
  {
    var t := FanPulseTick(ui);
    if n > 1 {
      FanPulseWalk(t, n - 1);
      var c := PulseStep(ui.fanSpeedIndex);
      assert (PulseStep(t.fanSpeedIndex) - 1 + n - 2) % 3 == (c - 1 + n - 1) % 3 by {
        if c == 3 {
          assert PulseStep(t.fanSpeedIndex) - 1 + n - 2 == (c - 1 + n - 1) - 3;
        } else {
          assert PulseStep(t.fanSpeedIndex) - 1 + n - 2 == c - 1 + n - 1;
        }
      }
    }
  }

  /** After its first tick the pulse repeats with period 3 */
  lemma FanPulsePeriod(ui: Ui, k: nat)
    requires ui.fanSpeedIndex >= 1
    requires k >= 1
    ensures var t := FanPulseTick(ui); FanPulseTicks(t, 3 * k) == t
  {
    var t := FanPulseTick(ui);
    FanPulseWalk(ui, 1);
    FanPulseWalk(t, 3 * k);
    var r := FanPulseTicks(t, 3 * k);
    assert r.fanSpeedIndex == t.fanSpeedIndex;
    assert r.lit == t.lit by {
      assert Ring(2) in r.lit <==> Ring(2) in t.lit;
      assert Ring(3) in r.lit <==> Ring(3) in t.lit;
    }
    FanPulseFrame(t, 3 * k);
  }

  /** Pulse ticks change only the lamps and the fan cursor */
  lemma {:induction false} FanPulseFrame(ui: Ui, n: nat)
    ensures var r := FanPulseTicks(ui, n); r == ui.(lit := r.lit, fanSpeedIndex := r.fanSpeedIndex)
    decreases n
  {
    if n > 0 {
      FanPulseFrame(FanPulseTick(ui), n - 1);
    }
  }

  /** `n` sweep ticks light exactly one direction, `n` places on round 1..6
      from where the first tick starts (a cursor of 7 or more starts again
      from 1), and leave the cursor just past it */
  lemma {:induction false} AirflowChangeWalk(ui: Ui, n: nat)
    requires ui.airflowIndex >= 1
    requires n >= 1
    ensures var r := AirflowChangeTicks(ui, n);
      var k := (SweepStep(ui.airflowIndex) - 1 + n - 1) % 6 + 1;
      && r.lit * Dirs == {Dir(k)}
      && r.airflowIndex == k + 1
      && r.lit - Dirs == ui.lit - Dirs
      && r == ui.(lit := r.lit, airflowIndex := r.airflowIndex)
    decreases n
  {
    var t := AirflowChangeTick(ui);
    if n > 1 {
      AirflowChangeWalk(t, n - 1);
      var c := SweepStep(ui.airflowIndex);
      assert (SweepStep(t.airflowIndex) - 1 + n - 2) % 6 == (c - 1 + n - 1) % 6 by {
        if c == 6 {
          assert SweepStep(t.airflowIndex) - 1 + n - 2 == (c - 1 + n - 1) - 6;
        } else {
          assert SweepStep(t.airflowIndex) - 1 + n - 2 == c - 1 + n - 1;
        }
      }
    }
  }

  /** After its first tick the sweep repeats with period 6 */
  lemma AirflowChangePeriod(ui: Ui, k: nat)
    requires ui.airflowIndex >= 1
    requires k >= 1
    ensures var t := AirflowChangeTick(ui); AirflowChangeTicks(t, 6 * k) == t
  {
    var t := AirflowChangeTick(ui);
    AirflowChangeWalk(ui, 1);
    AirflowChangeWalk(t, 6 * k);
    var r := AirflowChangeTicks(t, 6 * k);
    assert r.lit == t.lit by {
      assert r.lit == (r.lit - Dirs) + r.lit * Dirs;
      assert t.lit == (t.lit - Dirs) + t.lit * Dirs;
    }
  }

  /** The lamps the `open` animation shows once it has run a full round,
      read off the cursor: phase 1 dark, phase 2 boost, phase 3 boost and
      every direction */
  predicate OpenPhaseShown(ui: Ui)
  {
    && 2 <= ui.airflowIndex <= 4
    && (Boost in ui.lit <==> ui.airflowIndex >= 3)
    && (ui.airflowIndex <= 3 ==> ui.lit * Dirs == {})
    && (ui.airflowIndex == 4 ==> Dirs <= ui.lit)
  }

  /** `n` open ticks move the cursor `n` places round 2, 3, 4 from where the
      first tick starts; from the third tick on, the lamps are exactly the
      phase's, whatever the sweep or a direction left lit before */
  lemma {:induction false} AirflowOpenWalk(ui: Ui, n: nat)
    requires ui.airflowIndex >= 1
    requires n >= 1
    ensures var r := AirflowOpenTicks(ui, n);
      && r.airflowIndex == (PulseStep(ui.airflowIndex) - 1 + n - 1) % 3 + 2
      && (n >= 3 ==> OpenPhaseShown(r))
      && r.lit - Dirs - {Boost} == ui.lit - Dirs - {Boost}
      && r == ui.(lit := r.lit, airflowIndex := r.airflowIndex)
    decreases n
  {
    var t := AirflowOpenTick(ui);
    if n > 1 {
      AirflowOpenWalk(t, n - 1);
      var c := PulseStep(ui.airflowIndex);
      assert (PulseStep(t.airflowIndex) - 1 + n - 2) % 3 == (c - 1 + n - 1) % 3 by {
        if c == 3 {
          assert PulseStep(t.airflowIndex) - 1 + n - 2 == (c - 1 + n - 1) - 3;
        } else {
          assert PulseStep(t.airflowIndex) - 1 + n - 2 == c - 1 + n - 1;
        }
      }
      if n == 3 {
        var t2 := AirflowOpenTick(t);
        var t3 := AirflowOpenTick(t2);
        assert AirflowOpenTicks(ui, 3) == t3;
        assert OpenPhaseShown(t3);
      } else if n > 3 {
        AirflowOpenWalk(ui, n - 1);
        var p := AirflowOpenTicks(ui, n - 1);
        OpenTicksSplit(ui, n - 1);
        assert AirflowOpenTicks(ui, n) == AirflowOpenTick(p);
        assert OpenPhaseShown(AirflowOpenTick(p));
      }
    }
  }

  /** One more open tick after `n` of them */
  lemma {:induction false} OpenTicksSplit(ui: Ui, n: nat)
    ensures AirflowOpenTicks(ui, n + 1) == AirflowOpenTick(AirflowOpenTicks(ui, n))
    decreases n
  {
    if n > 0 {
      OpenTicksSplit(AirflowOpenTick(ui), n - 1);
    }
  }

  /** Once it has run a full round, the `open` animation repeats with period 3 */
  lemma AirflowOpenPeriod(ui: Ui, k: nat)
    requires ui.airflowIndex >= 1
    requires k >= 1
    ensures var t := AirflowOpenTicks(ui, 3); AirflowOpenTicks(t, 3 * k) == t
  {
    var t := AirflowOpenTicks(ui, 3);
    AirflowOpenWalk(ui, 3);
    AirflowOpenWalk(t, 3 * k);
    var r := AirflowOpenTicks(t, 3 * k);
    assert r.airflowIndex == t.airflowIndex;
    assert r.lit == t.lit by {
      assert Boost in r.lit <==> Boost in t.lit;
      assert r.lit * Dirs == t.lit * Dirs;
      assert r.lit == (r.lit - Dirs - {Boost}) + r.lit * Dirs + (r.lit * {Boost});
      assert t.lit == (t.lit - Dirs - {Boost}) + t.lit * Dirs + (t.lit * {Boost});
    }
  }
}

=== FILE: controller.dfy ===
/** The controller glue (js.js lines 16-86 and 181-193): a message from the
    server renders every field and sends nothing back; each click or edit on
    the page changes one field, then sends the whole state once. */
module Controller {
  import opened Wrappers
  import opened Lamps
  import opened Timers
  import opened Cycles
  import opened Panel

  /** The JSON object both directions of the socket carry; `null` is `None`.
      The temperature is the text of the degrees input. */
  datatype StateMessage = StateMessage(
    state: string,
    mode: string,
    temperature: string,
    fan: Option<int>,
    airflow: Option<string>)

  /** What one event leaves behind: the new page state, the messages sent
      (in order), and the exception the handler threw, if any */
  datatype Reaction = Reaction(ui: Ui, sent: seq<StateMessage>, fault: Option<Fault>)

  datatype Event =
    | Message(msg: StateMessage)
    | ModeClick(mode: string)
    | TemperatureChange(value: string)
    | TemperatureBlur
    | PowerClick
    | AirflowClick
    | FanSpeedClick
    | Tick(handle: nat)

  /** `publishState`: the power lamp decides "on"/"off", the lit mode button
      decides the mode (`auto` when none is lit), and fan and airflow are the
      last values shown */
  function PublishState(ui: Ui): (m: StateMessage)
    ensures m.state == "on" <==> Power in ui.lit
    ensures m.state == "on" || m.state == "off"
    ensures ui.activeMode.None? ==> m.mode == "auto"
    ensures ui.activeMode.Some? ==> m.mode == ui.activeMode.value
    ensures m.temperature == ui.temperature
    ensures m.fan == ui.lastFanSpeed && m.airflow == ui.lastAirflow
  {
    StateMessage(
      if Power in ui.lit then "on" else "off",
      ui.activeMode.GetOr("auto"),
      ui.temperature,
      ui.lastFanSpeed,
      ui.lastAirflow)
  }

  /** The state after a local edit, published once */
  function Publish(ui: Ui): (r: Reaction)
    ensures r.ui == ui && r.fault == None
    ensures |r.sent| == 1 && r.sent[0] == PublishState(ui)
  {
    Reaction(ui, [PublishState(ui)], None)
  }

  /** `aircoWs.onmessage`: temperature, mode, power, fan speed and airflow are
      rendered in that order and nothing is sent. A `null` airflow after a
      non-null one throws in the last step, so the first four fields are
      already applied and the airflow keeps its old value. */
  function OnMessage(ui: Ui, m: StateMessage): (r: Reaction)
    ensures r.sent == []
    ensures r.ui.temperature == m.temperature
    ensures r.ui.activeMode == (if m.mode in ui.modeButtons then Some(m.mode) else None)
    ensures Power in r.ui.lit <==> m.state == "on"
    ensures r.ui.lastFanSpeed == m.fan
    ensures r.fault.Some? <==> m.airflow.None? && ui.lastAirflow.Some?
    ensures r.ui.lastAirflow == (if r.fault.Some? then ui.lastAirflow else m.airflow)
  {
    var shown := SetFanSpeed(SetState(SetMode(ui.(temperature := m.temperature), m.mode), m.state), m.fan);
    match SetAirflow(shown, m.airflow)
    case Success(next) => Reaction(next, [], None)
    case Failure(e) => Reaction(shown, [], Some(e))
  }

  /** A click on a mode button selects that mode, changes nothing else, and
      publishes the whole state */
  function OnModeClick(ui: Ui, mode: string): (r: Reaction)
    requires mode in ui.modeButtons
    ensures r.ui == ui.(activeMode := Some(mode))
    ensures r.fault == None && r.sent == [PublishState(r.ui)] && r.sent[0].mode == mode
  {
    Publish(SetMode(ui, mode))
  }

  /** A committed edit of the degrees input publishes the new text */
  function OnTemperatureChange(ui: Ui, value: string): (r: Reaction)
    ensures r.ui == ui.(temperature := value)
    ensures r.fault == None && |r.sent| == 1 && r.sent[0].temperature == value
  {
    Publish(ui.(temperature := value))
  }

  /** Leaving the degrees input publishes the state unchanged */
  function OnTemperatureBlur(ui: Ui): (r: Reaction)
    ensures r.ui == ui
    ensures r.fault == None && r.sent == [PublishState(ui)]
  {
    Publish(ui)
  }

  /** A click on the power button flips the power lamp, changes nothing
      else, and publishes */
  function OnPowerClick(ui: Ui): (r: Reaction)
    ensures Power in r.ui.lit <==> Power !in ui.lit
    ensures r.ui.lit - {Power} == ui.lit - {Power}
    ensures r.ui == ui.(lit := r.ui.lit)
    ensures r.fault == None && |r.sent| == 1
    ensures r.sent[0].state == (if Power in ui.lit then "off" else "on")
  {
    Publish(SetState(ui, if Power in ui.lit then "off" else "on"))
  }

  /** A click on the airflow widget steps the airflow along the cycle, or
      leaves it when the current value is outside the cycle, and publishes
      either way */
  function OnAirflowClick(ui: Ui): (r: Reaction)
    ensures r.ui.lastAirflow == (if NextAirflow(ui.lastAirflow).Some? then NextAirflow(ui.lastAirflow) else ui.lastAirflow)
    ensures NextAirflow(ui.lastAirflow).None? ==> r.ui == ui
    ensures r.ui == ui.(lit := r.ui.lit, lastAirflow := r.ui.lastAirflow,
                        airflowChange := r.ui.airflowChange, intervals := r.ui.intervals)
    ensures r.ui.lit - Dirs == ui.lit - Dirs
    ensures KeepsAllBut(ui.intervals, r.ui.intervals, ui.airflowChange)
    ensures r.fault == None && |r.sent| == 1 && r.sent[0].airflow == r.ui.lastAirflow
  {
    match NextAirflow(ui.lastAirflow)
    case None => Publish(ui)
    case Some(next) =>
      Publish(SetAirflow(ui, Some(next)).value)
  }

  /** A click on the fan widget shows the next fan speed, touching only the
      rings and the fan interval, and publishes */
  function OnFanSpeedClick(ui: Ui): (r: Reaction)
    ensures r.ui.lastFanSpeed == Some(NextFanSpeed(ui.lastFanSpeed))
    ensures var v := NextFanSpeed(ui.lastFanSpeed);
      && (v != 4 ==> r.ui.lit * Rings == RingsUpTo(v) && FanTimer(r.ui).None?)
      && (v == 4 ==> FanTimer(r.ui) == Some(FanPulse) && Ring(1) in r.ui.lit)
    ensures r.ui == ui.(lit := r.ui.lit, lastFanSpeed := r.ui.lastFanSpeed,
                        fanSpeedChange := r.ui.fanSpeedChange, intervals := r.ui.intervals)
    ensures r.ui.lit - Rings == ui.lit - Rings
    ensures KeepsAllBut(ui.intervals, r.ui.intervals, ui.fanSpeedChange)
    ensures r.fault == None && |r.sent| == 1 && r.sent[0].fan == Some(NextFanSpeed(ui.lastFanSpeed))
  {
    Publish(SetFanSpeed(ui, Some(NextFanSpeed(ui.lastFanSpeed))))
  }

  /** Dispatches one event. Local edits publish exactly once, after their
      change, and what they publish is the new state; server messages and
      interval ticks publish nothing. */
  function Handle(ui: Ui, e: Event): (r: Reaction)
    requires e.ModeClick? ==> e.mode in ui.modeButtons
    ensures e.Message? || e.Tick? ==> r.sent == []
    ensures !(e.Message? || e.Tick?) ==> r.sent == [PublishState(r.ui)] && r.fault == None
    ensures r.fault.Some? ==> e.Message?
    ensures r.ui.modeButtons == ui.modeButtons
  {
    match e
    case Message(m) => OnMessage(ui, m)
    case ModeClick(mode) => OnModeClick(ui, mode)
    case TemperatureChange(v) => OnTemperatureChange(ui, v)
    case TemperatureBlur => OnTemperatureBlur(ui)
    case PowerClick => OnPowerClick(ui)
    case AirflowClick => OnAirflowClick(ui)
    case FanSpeedClick => OnFanSpeedClick(ui)
    case Tick(h) => Reaction(Fire(ui, h), [], None)
  }

  /** Every mode click in `events` is on a button the page has */
  predicate Clickable(ui: Ui, events: seq<Event>)
  {
    forall i :: 0 <= i < |events| && events[i].ModeClick? ==> events[i].mode in ui.modeButtons
  }

  /** The page after a sequence of events (the mode buttons never change) */
  function Run(ui: Ui, events: seq<Event>): (r: Ui)
    requires Clickable(ui, events)
    ensures r.modeButtons == ui.modeButtons
    decreases |events|
  {
    if events == [] then ui
    else
      Run(Handle(ui, events[0]).ui, events[1..])
  }

  /** The messages a sequence of events sends */
  function Sent(ui: Ui, events: seq<Event>): seq<StateMessage>
    requires Clickable(ui, events)
    decreases |events|
  {
    if events == [] then []
    else Handle(ui, events[0]).sent + Sent(Handle(ui, events[0]).ui, events[1..])
  }
}

=== FILE: cycles.dfy ===
/** The tap rules: what a click on the fan-speed widget or on the airflow
    widget asks the panel to show next (js.js lines 49-86). */
module Cycles {
  import opened Wrappers

  /** The airflow values in tap order; a tap on the last wraps to the first */
  const AirflowCycle: seq<string> := ["open", "dir_1", "dir_2", "dir_3", "dir_4", "dir_5", "dir_6", "change"]

  /** The fan speed a tap asks for. At 4 it wraps to 1; otherwise it adds one,
      and an unset speed counts as 0 (JavaScript's `null + 1` is 1). Nothing
      checks the range: a speed 7 pushed by the server steps to 8. */
  function NextFanSpeed(fan: Option<int>): (next: int)
    ensures fan.Some? && 1 <= fan.value <= 4 ==> next == fan.value % 4 + 1
    ensures fan.None? ==> next == 1
    ensures fan.Some? && fan.value != 4 ==> next == fan.value + 1
  {
    if fan == Some(4) then 1 else fan.GetOr(0) + 1
  }

  /** The airflow value a tap asks for, or `None` when the current value is
      not one of the cycle's (the switch has no default, so nothing is set) */
  function NextAirflow(airflow: Option<string>): (next: Option<string>)
    ensures next.Some? <==> airflow.Some? && airflow.value in AirflowCycle
    ensures next.Some? ==> next.value in AirflowCycle
  {
    if airflow == Some("open") then Some("dir_1")
    else if airflow == Some("dir_1") then Some("dir_2")
    else if airflow == Some("dir_2") then Some("dir_3")
    else if airflow == Some("dir_3") then Some("dir_4")
    else if airflow == Some("dir_4") then Some("dir_5")
    else if airflow == Some("dir_5") then Some("dir_6")
    else if airflow == Some("dir_6") then Some("change")
    else if airflow == Some("change") then Some("open")
    else None
  }

  /** The tap switch agrees with the cycle read as a ring: from position `i`
      it moves to position `i + 1`, wrapping after `change` */
  lemma AirflowTapFollowsCycle(i: nat)
    requires i < |AirflowCycle|
    ensures NextAirflow(Some(AirflowCycle[i])) == Some(AirflowCycle[(i + 1) % |AirflowCycle|])
  {
  }

  /** The last fan speed after `n` taps */
  function FanAfterTaps(fan: Option<int>, n: nat): Option<int>
    decreases n
  {
    if n == 0 then fan else FanAfterTaps(Some(NextFanSpeed(fan)), n - 1)
  }

  /** The last airflow value after `n` taps: a tap outside the cycle leaves it */
  function AirflowAfterTaps(airflow: Option<string>, n: nat): Option<string>
    decreases n
  {
    if n == 0 then airflow
    else AirflowAfterTaps(if NextAirflow(airflow).Some? then NextAirflow(airflow) else airflow, n - 1)
  }

  /** Taps on a speed in 1..4 walk the cycle 1, 2, 3, 4 with wrap-around */
  lemma {:induction false} FanTapsWalkCycle(v: int, n: nat)
    requires 1 <= v <= 4
    ensures FanAfterTaps(Some(v), n) == Some((v - 1 + n) % 4 + 1)
    decreases n
  {
    if n > 0 {
      var w := v % 4 + 1;
      FanTapsWalkCycle(w, n - 1);
      assert (w - 1 + (n - 1)) % 4 == (v - 1 + n) % 4 by {
        if v == 4 {
          assert w - 1 + (n - 1) == (v - 1 + n) - 4;
        } else {
          assert w - 1 + (n - 1) == v - 1 + n;
        }
      }
    }
  }

  /** Four taps from any speed in 1..4 come back to it; the first tap on an
      unset speed gives 1 */
  lemma FanCycleCloses(v: int)
    requires 1 <= v <= 4
    ensures FanAfterTaps(Some(v), 4) == Some(v)
    ensures FanAfterTaps(None, 1) == Some(1)
  {
  }

  /** `m` taps and then `n` more are `m + n` taps */
  lemma {:induction false} AirflowTapsSplit(airflow: Option<string>, m: nat, n: nat)
    ensures AirflowAfterTaps(airflow, m + n) == AirflowAfterTaps(AirflowAfterTaps(airflow, m), n)
    decreases m
  {
    if m > 0 {
      var next := if NextAirflow(airflow).Some? then NextAirflow(airflow) else airflow;
      AirflowTapsSplit(next, m - 1, n);
    }
  }

  /** Eight taps from `open` go once round the whole cycle and back */
  lemma AirflowCycleCloses()
    ensures AirflowAfterTaps(Some("open"), 8) == Some("open")
  {
  }

  /** From `open`, taps on the airflow widget repeat with period 8 */
  lemma AirflowTapsPeriodic(n: nat)
    ensures AirflowAfterTaps(Some("open"), n + 8) == AirflowAfterTaps(Some("open"), n)
  {
    AirflowTapsSplit(Some("open"), 8, n);
    AirflowCycleCloses();
  }

  /** A value outside the cycle, `null` included, is never changed by taps */
  lemma {:induction false} AirflowTapsOutsideCycle(airflow: Option<string>, n: nat)
    requires airflow.None? || airflow.value !in AirflowCycle
    ensures AirflowAfterTaps(airflow, n) == airflow
    decreases n
  {
    if n > 0 {
      AirflowTapsOutsideCycle(airflow, n - 1);
    }
  }
}

=== FILE: invariants.dfy ===
/** The invariant every reachable page state keeps, and the properties that
    follow from it: both animation cursors stay in range, every interval
    handle names an interval of its own family, at most one interval per
    family is running, and the running interval always matches the target
    value last shown. */
module Invariants {
  import opened Wrappers
  import opened Lamps
  import opened Timers
  import opened Cycles
  import opened Panel
  import opened Controller

  /** The running intervals agree with the values last shown: the pulse runs
      exactly while the fan shows 4 (with `ring_1` lit), any other fan speed
      shows exactly its static rings, `change` and `open`
      have their animation running, and a `dir_` value has none and shows its
      own direction only */
  predicate TimersMatchTargets(ui: Ui)
  {
    && (FanTimer(ui).Some? <==> ui.lastFanSpeed == Some(4))
    && (ui.lastFanSpeed == Some(4) ==> Ring(1) in ui.lit)
    && (ui.lastFanSpeed.Some? && ui.lastFanSpeed.value != 4 ==>
          ui.lit * Rings == RingsUpTo(ui.lastFanSpeed.value))
    && (ui.lastAirflow == Some("change") ==> AirflowTimer(ui) == Some(AirflowChange))
    && (ui.lastAirflow == Some("open") ==> AirflowTimer(ui) == Some(AirflowOpen))
    && (ui.lastAirflow.Some? && DirPrefixed(ui.lastAirflow.value) ==>
          AirflowTimer(ui).None? && ui.lit * Dirs == DirLamp(ui.lastAirflow.value))
  }

  predicate Wf(ui: Ui)
  {
    && 1 <= ui.fanSpeedIndex <= 4
    && 1 <= ui.airflowIndex <= 7
    && ui.lit <= PageLamps
    && (ui.activeMode.Some? ==> ui.activeMode.value in ui.modeButtons)
    && HandleOf(ui.intervals, FanFamily, ui.fanSpeedChange)
    && HandleOf(ui.intervals, AirflowFamily, ui.airflowChange)
    && OnlyLiveAt(ui.intervals, FanFamily, ui.fanSpeedChange)
    && OnlyLiveAt(ui.intervals, AirflowFamily, ui.airflowChange)
    && TimersMatchTargets(ui)
  }

  lemma InitWf(modeButtons: set<string>, temperature: string)
    ensures Wf(Init(modeButtons, temperature))
  {
  }

  /** Under the invariant at most one interval per family runs, and it is the
      one the family's handle names */
  lemma SingleTimerPerFamily(ui: Ui)
    requires Wf(ui)
    ensures LiveCount(ui.intervals, FanFamily) == (if FanTimer(ui).Some? then 1 else 0)
    ensures LiveCount(ui.intervals, AirflowFamily) == (if AirflowTimer(ui).Some? then 1 else 0)
    ensures LiveCount(ui.intervals, FanFamily) <= 1 && LiveCount(ui.intervals, AirflowFamily) <= 1
  {
    SingleTimer(ui.intervals, FanFamily, ui.fanSpeedChange);
    SingleTimer(ui.intervals, AirflowFamily, ui.airflowChange);
  }

  lemma SetFanSpeedWf(ui: Ui, fan: Option<int>)
    requires Wf(ui)
    ensures Wf(SetFanSpeed(ui, fan))
  {
    var r := SetFanSpeed(ui, fan);
    if fan != ui.lastFanSpeed {
      assert AirflowTimer(r) == AirflowTimer(ui) && r.lastAirflow == ui.lastAirflow;
      assert r.lit * Dirs == ui.lit * Dirs;
      assert TimersMatchTargets(r);
    }
  }

  lemma SetAirflowWf(ui: Ui, airflow: Option<string>)
    requires Wf(ui)
    ensures SetAirflow(ui, airflow).Success? ==> Wf(SetAirflow(ui, airflow).value)
  {
    if ui.lastAirflow != airflow && airflow.Some? {
      var s := airflow.value;
      match TargetOf(s)
      case ChangeTarget =>
        SetAirflowAnimationWf(ui, s);
      case OpenTarget =>
        SetAirflowAnimationWf(ui, s);
      case DirTarget =>
        SetAirflowDirWf(ui, s);
      case Unrecognised =>
        assert TimersMatchTargets(SetAirflow(ui, airflow).value);
    }
  }

  /** `change` and `open` replace the airflow interval and keep the invariant */
  lemma SetAirflowAnimationWf(ui: Ui, s: string)
    requires Wf(ui) && ui.lastAirflow != Some(s)
    requires s == "change" || s == "open"
    ensures Wf(SetAirflow(ui, Some(s)).value)
  {
    var v := SetAirflow(ui, Some(s)).value;
    assert FanTimer(v) == FanTimer(ui) && v.lit == ui.lit;
    assert |s| >= 4 ==> s[..4][0] == s[0];
    assert !DirPrefixed(s);
    assert TimersMatchTargets(v);
  }

  /** A `dir_` value stops the airflow interval and keeps the invariant */
  lemma SetAirflowDirWf(ui: Ui, s: string)
    requires Wf(ui) && ui.lastAirflow != Some(s)
    requires DirPrefixed(s)
    ensures Wf(SetAirflow(ui, Some(s)).value)
  {
    var v := SetAirflow(ui, Some(s)).value;
    assert s[0] == s[..4][0] == 'd';
    assert s != "change" && s != "open";
    assert FanTimer(v) == FanTimer(ui);
    assert v.lit * Rings == ui.lit * Rings;
    assert TimersMatchTargets(v);
  }

  lemma FireWf(ui: Ui, h: nat)
    requires Wf(ui)
    ensures Wf(Fire(ui, h))
  {
  }

  /** A server message whose airflow render throws leaves the airflow
      animation as it was: the same interval runs, its cursor stays, and the
      direction and boost lamps are untouched */
  lemma MessageFaultLeavesAirflow(ui: Ui, m: StateMessage)
    requires Wf(ui)
    ensures var r := OnMessage(ui, m);
      r.fault.Some? ==>
        && AirflowTimer(r.ui) == AirflowTimer(ui)
        && r.ui.airflowIndex == ui.airflowIndex
        && r.ui.lit * (Dirs + {Boost}) == ui.lit * (Dirs + {Boost})
  {
  }

  /** Every event keeps the invariant */
  lemma HandleWf(ui: Ui, e: Event)
    requires Wf(ui)
    requires e.ModeClick? ==> e.mode in ui.modeButtons
    ensures Wf(Handle(ui, e).ui)
  {
    match e
    case Message(m) =>
      var shown := SetFanSpeed(SetState(SetMode(ui.(temperature := m.temperature), m.mode), m.state), m.fan);
      SetFanSpeedWf(SetState(SetMode(ui.(temperature := m.temperature), m.mode), m.state), m.fan);
      SetAirflowWf(shown, m.airflow);
    case ModeClick(mode) =>
    case TemperatureChange(v) =>
    case TemperatureBlur =>
    case PowerClick =>
    case AirflowClick =>
      var next := NextAirflow(ui.lastAirflow);
      if next.Some? {
        SetAirflowWf(ui, next);
      }
    case FanSpeedClick =>
      SetFanSpeedWf(ui, Some(NextFanSpeed(ui.lastFanSpeed)));
    case Tick(h) =>
      FireWf(ui, h);
  }

  /** Every sequence of events keeps the invariant */
  lemma {:induction false} RunWf(ui: Ui, events: seq<Event>)
    requires Wf(ui)
    requires Clickable(ui, events)
    ensures Wf(Run(ui, events))
    decreases |events|
  {
    if events != [] {
      HandleWf(ui, events[0]);
      RunWf(Handle(ui, events[0]).ui, events[1..]);
    }
  }

  /** From page load, whatever happens, at most one fan interval and at most
      one airflow interval run at any time, and the running one matches the
      value last shown */
  lemma ReachableSingleTimer(modeButtons: set<string>, temperature: string, events: seq<Event>)
    requires Clickable(Init(modeButtons, temperature), events)
    ensures var ui := Run(Init(modeButtons, temperature), events);
      && LiveCount(ui.intervals, FanFamily) <= 1
      && LiveCount(ui.intervals, AirflowFamily) <= 1
      && 1 <= ui.fanSpeedIndex <= 4
      && 1 <= ui.airflowIndex <= 7
      && TimersMatchTargets(ui)
  {
    InitWf(modeButtons, temperature);
    RunWf(Init(modeButtons, temperature), events);
    SingleTimerPerFamily(Run(Init(modeButtons, temperature), events));
  }

  /** Whether an event is a local edit, which publishes */
  predicate Local(e: Event)
  {
    !(e.Message? || e.Tick?)
  }

  /** The number of local edits among `events` */
  function LocalCount(events: seq<Event>): nat
  {
    if events == [] then 0 else (if Local(events[0]) then 1 else 0) + LocalCount(events[1..])
  }

  /** A sequence of events sends exactly one message per local edit: server
      messages and ticks never echo anything back */
  lemma {:induction false} SentPerLocalEdit(ui: Ui, events: seq<Event>)
    requires Clickable(ui, events)
    ensures |Sent(ui, events)| == LocalCount(events)
    decreases |events|
  {
    if events != [] {
      SentPerLocalEdit(Handle(ui, events[0]).ui, events[1..]);
    }
  }

  /** `setFanSpeed` clears before it arms: afterwards exactly one fan interval
      runs when the fan shows 4 and none otherwise, and the airflow intervals
      are as before */
  lemma SetFanSpeedTimers(ui: Ui, fan: Option<int>)
    requires Wf(ui)
    ensures var r := SetFanSpeed(ui, fan);
      && LiveCount(r.intervals, FanFamily) == (if fan == Some(4) then 1 else 0)
      && LiveCount(r.intervals, AirflowFamily) == LiveCount(ui.intervals, AirflowFamily)
  {
    var r := SetFanSpeed(ui, fan);
    SetFanSpeedWf(ui, fan);
    SingleTimerPerFamily(ui);
    SingleTimerPerFamily(r);
  }

  /** `setAirflow` clears before it arms: afterwards exactly one airflow
      interval runs for `change` and `open`, none for a direction, and an
      unrecognised value leaves the running one alone; the fan intervals are
      as before */
  lemma SetAirflowTimers(ui: Ui, airflow: Option<string>)
    requires Wf(ui)
    requires SetAirflow(ui, airflow).Success?
    ensures var r := SetAirflow(ui, airflow).value;
      && (airflow == Some("change") || airflow == Some("open") ==> LiveCount(r.intervals, AirflowFamily) == 1)
      && (airflow.Some? && DirPrefixed(airflow.value) ==> LiveCount(r.intervals, AirflowFamily) == 0)
      && (airflow.Some? && TargetOf(airflow.value) == Unrecognised ==>
            LiveCount(r.intervals, AirflowFamily) == LiveCount(ui.intervals, AirflowFamily))
      && LiveCount(r.intervals, FanFamily) == LiveCount(ui.intervals, FanFamily)
  {
    var r := SetAirflow(ui, airflow).value;
    SetAirflowWf(ui, airflow);
    SingleTimerPerFamily(ui);
    SingleTimerPerFamily(r);
    if ui.lastAirflow != airflow && airflow.Some? {
      assert FanTimer(r) == FanTimer(ui);
    }
  }

  /** Rendering the same value twice is the same as rendering it once */
  lemma SettersIdempotent(ui: Ui, fan: Option<int>, airflow: Option<string>, mode: string, state: string)
    ensures SetFanSpeed(SetFanSpeed(ui, fan), fan) == SetFanSpeed(ui, fan)
    ensures SetAirflow(ui, airflow).Success? ==>
      SetAirflow(SetAirflow(ui, airflow).value, airflow) == SetAirflow(ui, airflow)
    ensures SetMode(SetMode(ui, mode), mode) == SetMode(ui, mode)
    ensures SetState(SetState(ui, state), state) == SetState(ui, state)
  {
  }
}

=== FILE: lamps.dfy ===
/** The indicator lamps of the panel. The page shows five fan-speed rings
    (`ring_0` .. `ring_4`), six airflow directions (`dir_1` .. `dir_6`), a
    `boost` marker and the power button; a lamp is lit when its element carries
    the CSS class `active`. Adding the class through a selector that matches no
    element changes nothing, so every lamp set below stays inside `PageLamps`. */
module Lamps {

  datatype Lamp = Ring(n: int) | Dir(n: int) | Boost | Power

  const Rings: set<Lamp> := {Ring(0), Ring(1), Ring(2), Ring(3), Ring(4)}
  const Dirs: set<Lamp> := {Dir(1), Dir(2), Dir(3), Dir(4), Dir(5), Dir(6)}

  /** Every lamp the page has */
  const PageLamps: set<Lamp> := Rings + Dirs + {Boost, Power}

  /** The class name of direction `k`, as the airflow protocol spells it */
  function DirName(k: int): string
    requires 1 <= k <= 6
  {
    "dir_" + [('0' as int + k) as char]
  }

  /** The rings a static fan level `n` lights: `ring_0` up to `ring_n`, as far
      as the page has rings */
  function RingsUpTo(n: int): (rs: set<Lamp>)
    ensures rs <= Rings
    ensures forall i :: Ring(i) in rs <==> 0 <= i <= 4 && i <= n
  {
    set i | 0 <= i <= 4 && i <= n :: Ring(i)
  }

  /** The airflow value's `dir_` prefix test: the first four characters are `dir_` */
  predicate DirPrefixed(s: string)
  {
    |s| >= 4 && s[..4] == "dir_"
  }

  /** The lamps the selector `#airflow .<s>` lights: the one direction whose
      class name is exactly `s`, or none */
  function DirLamp(s: string): (ls: set<Lamp>)
    ensures ls <= Dirs
    ensures forall k :: 1 <= k <= 6 ==> (Dir(k) in ls <==> s == DirName(k))
  {
    if |s| == 5 && s[..4] == "dir_" && '1' <= s[4] <= '6'
    then
      assert forall k :: 1 <= k <= 6 && s == DirName(k) ==> k == s[4] as int - '0' as int;
      {Dir(s[4] as int - '0' as int)}
    else {}
  }
}

=== FILE: panel.dfy ===
/** The panel's state and its render functions (js.js lines 2-8 and
    88-179): the last fan speed and airflow value shown, the two animation
    cursors, the two interval handles, the lit lamps and the selected mode. */
module Panel {
  import opened Wrappers
  import opened Lamps
  import opened Timers

  /** Everything the page remembers between callbacks. The temperature is the
      text of the degrees input, copied verbatim; `modeButtons` are the modes
      the page has buttons for, and `activeMode` is the lit one. */
  datatype Ui = Ui(
    temperature: string,
    modeButtons: set<string>,
    activeMode: Option<string>,
    lit: set<Lamp>,
    lastFanSpeed: Option<int>,
    fanSpeedIndex: int,
    fanSpeedChange: Option<nat>,
    lastAirflow: Option<string>,
    airflowIndex: int,
    airflowChange: Option<nat>,
    intervals: Registry)

  /** `setAirflow(null)` after a non-null value reaches `airflow.substr` on
      `null`, which throws a TypeError */
  datatype Fault = NullAirflow

  /** The page as it loads: nothing shown, both cursors at 1, no interval */
  function Init(modeButtons: set<string>, temperature: string): (ui: Ui)
    ensures ui.lit == {} && ui.activeMode == None
    ensures ui.lastFanSpeed == None && ui.lastAirflow == None
    ensures ui.fanSpeedIndex == 1 && ui.airflowIndex == 1
    ensures ui.intervals == []
  {
    Ui(temperature, modeButtons, None, {}, None, 1, None, None, 1, None, [])
  }

  /** The running fan interval, if any */
  function FanTimer(ui: Ui): Option<Callback>
  {
    Armed(ui.intervals, ui.fanSpeedChange)
  }

  /** The running airflow interval, if any */
  function AirflowTimer(ui: Ui): Option<Callback>
  {
    Armed(ui.intervals, ui.airflowChange)
  }

  /** The level the ring loop `i <= fan` stops at: `null` compares as 0 */
  function FanLevel(fan: Option<int>): int
  {
    fan.GetOr(0)
  }

  /** `setFanSpeed`: nothing happens when `fan` is already shown. Otherwise the
      fan interval is cleared first; speed 4 then lights `ring_1` and arms the
      pulse, and any other value shows `ring_0` .. `ring_fan` statically. Other
      lamps, and everything about airflow, mode and temperature, stay. */
  function SetFanSpeed(ui: Ui, fan: Option<int>): (r: Ui)
    ensures r.lastFanSpeed == fan
    ensures fan == ui.lastFanSpeed ==> r == ui
    ensures fan != ui.lastFanSpeed && ui.fanSpeedChange.Some? && ui.fanSpeedChange.value < |ui.intervals| ==>
      |r.intervals| > ui.fanSpeedChange.value && !r.intervals[ui.fanSpeedChange.value].live
    ensures fan != ui.lastFanSpeed && fan == Some(4) ==>
      && FanTimer(r) == Some(FanPulse)
      && r.fanSpeedChange == Some(|ui.intervals|)
      && r.lit == ui.lit + {Ring(1)}
    ensures fan != ui.lastFanSpeed && fan != Some(4) ==>
      && FanTimer(r).None?
      && r.lit * Rings == RingsUpTo(FanLevel(fan))
      && r.lit - Rings == ui.lit - Rings
    ensures KeepsAllBut(ui.intervals, r.intervals, ui.fanSpeedChange)
    ensures r == ui.(lit := r.lit, lastFanSpeed := r.lastFanSpeed,
                     fanSpeedChange := r.fanSpeedChange, intervals := r.intervals)
  {
    if ui.lastFanSpeed == fan then ui
    else if fan == Some(4) then
      var cleared := ClearInterval(ui.intervals, ui.fanSpeedChange);
      var (armed, h) := SetInterval(cleared, FanPulse);
      ui.(intervals := armed, fanSpeedChange := Some(h), lit := ui.lit + {Ring(1)}, lastFanSpeed := fan)
    else
      ui.(intervals := ClearInterval(ui.intervals, ui.fanSpeedChange),
          lit := ui.lit - Rings + RingsUpTo(FanLevel(fan)),
          lastFanSpeed := fan)
  }

  /** How the airflow render reads a target value */
  datatype Target = ChangeTarget | OpenTarget | DirTarget | Unrecognised

  function TargetOf(s: string): Target
  {
    if s == "change" then ChangeTarget
    else if s == "open" then OpenTarget
    else if DirPrefixed(s) then DirTarget
    else Unrecognised
  }

  /** `setAirflow`: nothing is rendered when `airflow` is already shown.
      Otherwise `change` and `open` replace the airflow interval with their
      animation, a `dir_`-prefixed value stops the interval and shows exactly
      that direction, and any other string is only recorded; in every case
      the value becomes the last shown. `null` after a non-null value throws
      before anything changes. */
  function SetAirflow(ui: Ui, airflow: Option<string>): (r: Result<Ui, Fault>)
    ensures r.Failure? <==> airflow.None? && ui.lastAirflow.Some?
    ensures r.Success? ==> r.value.lastAirflow == airflow
    ensures airflow == ui.lastAirflow ==> r == Success(ui)
    ensures r.Success? && airflow != ui.lastAirflow ==>
      var s := airflow.value;
      var v := r.value;
      && (TargetOf(s) != Unrecognised && ui.airflowChange.Some? && ui.airflowChange.value < |ui.intervals| ==>
            |v.intervals| > ui.airflowChange.value && !v.intervals[ui.airflowChange.value].live)
      && (TargetOf(s) == ChangeTarget ==> AirflowTimer(v) == Some(AirflowChange) && v.lit == ui.lit)
      && (TargetOf(s) == OpenTarget ==> AirflowTimer(v) == Some(AirflowOpen) && v.lit == ui.lit)
      && (TargetOf(s) == DirTarget ==>
            AirflowTimer(v).None? && v.lit * Dirs == DirLamp(s) && v.lit - Dirs == ui.lit - Dirs)
      && (TargetOf(s) == Unrecognised ==> v == ui.(lastAirflow := airflow))
    ensures r.Success? ==> KeepsAllBut(ui.intervals, r.value.intervals, ui.airflowChange)
    ensures r.Success? ==> r.value.lit - Dirs == ui.lit - Dirs
    ensures r.Success? ==>
      r.value == ui.(lit := r.value.lit, lastAirflow := r.value.lastAirflow,
                     airflowChange := r.value.airflowChange, intervals := r.value.intervals)
  {
    if ui.lastAirflow == airflow then Success(ui)
    else match airflow
      case None => Failure(NullAirflow)
      case Some(s) =>
        var shown :=
          match TargetOf(s)
          case ChangeTarget =>
            var (armed, h) := SetInterval(ClearInterval(ui.intervals, ui.airflowChange), AirflowChange);
            ui.(intervals := armed, airflowChange := Some(h))
          case OpenTarget =>
            var (armed, h) := SetInterval(ClearInterval(ui.intervals, ui.airflowChange), AirflowOpen);
            ui.(intervals := armed, airflowChange := Some(h))
          case DirTarget =>
            ui.(intervals := ClearInterval(ui.intervals, ui.airflowChange),
                lit := ui.lit - Dirs + DirLamp(s))
          case Unrecognised => ui;
        Success(shown.(lastAirflow := airflow))
  }

  /** `setMode`: every mode button goes dark, then the button for `mode`
      lights if the page has one */
  function SetMode(ui: Ui, mode: string): (r: Ui)
    ensures r.activeMode.Some? <==> mode in ui.modeButtons
    ensures r.activeMode.Some? ==> r.activeMode.value == mode
    ensures r == ui.(activeMode := r.activeMode)
  {
    ui.(activeMode := if mode in ui.modeButtons then Some(mode) else None)
  }

  /** `setState`: the power lamp is lit exactly for `"on"`; any other value
      turns it off */
  function SetState(ui: Ui, state: string): (r: Ui)
    ensures Power in r.lit <==> state == "on"
    ensures r.lit - {Power} == ui.lit - {Power}
    ensures r == ui.(lit := r.lit)
  {
    ui.(lit := if state == "on" then ui.lit + {Power} else ui.lit - {Power})
  }

  /** The pulse cursor a tick uses: at 4 or above it restarts from 1 */
  function PulseStep(index: int): int
  {
    if index >= 4 then 1 else index
  }

  /** One tick of the max-speed pulse: rings 2 and 3 go dark, rings 2 up to
      the cursor light, and the cursor advances. Ring 2 ends lit when the
      cursor was 2 or 3, ring 3 when it was 3: lit rings 2 .. cursor-1 after
      the step. Nothing else changes. */
  function FanPulseTick(ui: Ui): (r: Ui)
    ensures ui.fanSpeedIndex >= 1 ==> 2 <= r.fanSpeedIndex <= 4
    ensures ui.fanSpeedIndex >= 1 ==>
      && (Ring(2) in r.lit <==> r.fanSpeedIndex >= 3)
      && (Ring(3) in r.lit <==> r.fanSpeedIndex == 4)
    ensures r.lit - {Ring(2), Ring(3)} == ui.lit - {Ring(2), Ring(3)}
    ensures r == ui.(lit := r.lit, fanSpeedIndex := r.fanSpeedIndex)
  {
    var cursor := PulseStep(ui.fanSpeedIndex);
    ui.(lit := ui.lit - {Ring(2), Ring(3)} + (set i | 2 <= i <= 3 && i <= cursor :: Ring(i)),
        fanSpeedIndex := cursor + 1)
  }

  /** The sweep cursor a `change` tick uses: at 7 or above it restarts from 1 */
  function SweepStep(index: int): int
  {
    if index >= 7 then 1 else index
  }

  /** One tick of the `change` sweep: the lit direction goes dark, direction
      `cursor` lights, and the cursor advances. Exactly one direction ends lit,
      the one just before the new cursor. Nothing else changes. */
  function AirflowChangeTick(ui: Ui): (r: Ui)
    ensures ui.airflowIndex >= 1 ==>
      && 2 <= r.airflowIndex <= 7
      && r.lit * Dirs == {Dir(r.airflowIndex - 1)}
    ensures r.lit - Dirs == ui.lit - Dirs
    ensures r == ui.(lit := r.lit, airflowIndex := r.airflowIndex)
  {
    var cursor := SweepStep(ui.airflowIndex);
    ui.(lit := ui.lit - Dirs + (if Dir(cursor) in Dirs then {Dir(cursor)} else {}),
        airflowIndex := cursor + 1)
  }

  /** One tick of the `open` animation over the shared cursor, which restarts
      from 1 at 4 or above: phase 1 darkens boost and every direction, phase 2
      lights boost, phase 3 lights every direction; then the cursor advances.
      Rings and power are untouched. */
  function AirflowOpenTick(ui: Ui): (r: Ui)
    ensures ui.airflowIndex >= 1 ==> 2 <= r.airflowIndex <= 4
    ensures ui.airflowIndex >= 1 && r.airflowIndex == 2 ==> Boost !in r.lit && r.lit * Dirs == {}
    ensures ui.airflowIndex >= 1 && r.airflowIndex == 3 ==> Boost in r.lit && r.lit * Dirs == ui.lit * Dirs
    ensures ui.airflowIndex >= 1 && r.airflowIndex == 4 ==> Dirs <= r.lit && (Boost in r.lit <==> Boost in ui.lit)
    ensures r.lit - Dirs - {Boost} == ui.lit - Dirs - {Boost}
    ensures r == ui.(lit := r.lit, airflowIndex := r.airflowIndex)
  {
    var phase := PulseStep(ui.airflowIndex);
    var lit :=
      if phase == 1 then ui.lit - {Boost} - Dirs
      else if phase == 2 then ui.lit + {Boost}
      else if phase == 3 then ui.lit + Dirs
      else ui.lit;
    ui.(lit := lit, airflowIndex := phase + 1)
  }

  /** The interval behind handle `h` fires: its callback runs if the interval
      is still running, and a cleared interval does nothing */
  function Fire(ui: Ui, h: nat): (r: Ui)
    ensures !(h < |ui.intervals| && ui.intervals[h].live) ==> r == ui
    ensures h < |ui.intervals| && ui.intervals[h].live && ui.intervals[h].callback == FanPulse ==>
      r == FanPulseTick(ui)
    ensures h < |ui.intervals| && ui.intervals[h].live && ui.intervals[h].callback == AirflowChange ==>
      r == AirflowChangeTick(ui)
    ensures h < |ui.intervals| && ui.intervals[h].live && ui.intervals[h].callback == AirflowOpen ==>
      r == AirflowOpenTick(ui)
    ensures r.intervals == ui.intervals
    ensures r.lastFanSpeed == ui.lastFanSpeed && r.lastAirflow == ui.lastAirflow
  {
    if h < |ui.intervals| && ui.intervals[h].live then
      match ui.intervals[h].callback
      case FanPulse => FanPulseTick(ui)
      case AirflowChange => AirflowChangeTick(ui)
      case AirflowOpen => AirflowOpenTick(ui)
    else ui
  }
}

=== FILE: scenarios.dfy ===
/** Whole-page behaviours: repeated clicks walk the tap cycles and publish
    once each, a server message is echoed back unchanged by the next publish,
    and the fan and airflow animations hand over cleanly. */
module Scenarios {
  import opened Wrappers
  import opened Lamps
  import opened Timers
  import opened Cycles
  import opened Panel
  import opened Controller
  import opened Invariants

  /** `n` clicks of the same kind */
  function Clicks(e: Event, n: nat): (es: seq<Event>)
    ensures |es| == n && forall i :: 0 <= i < n ==> es[i] == e
  {
    seq(n, _ => e)
  }

  /** The first of `n` clicks is handled on its own, the other `n - 1` after it */
  lemma ClickStep(ui: Ui, e: Event, n: nat)
    requires n > 0 && !e.ModeClick?
    ensures Clickable(ui, Clicks(e, n))
    ensures Run(ui, Clicks(e, n)) == Run(Handle(ui, e).ui, Clicks(e, n - 1))
    ensures Sent(ui, Clicks(e, n)) == Handle(ui, e).sent + Sent(Handle(ui, e).ui, Clicks(e, n - 1))
  {
    assert Clicks(e, n)[1..] == Clicks(e, n - 1);
  }

  /** One fan click is one tap: `n` taps from before the click are `n - 1`
      taps from after it, and the click sends one message carrying its speed */
  lemma FanClickTaps(ui: Ui, n: nat)
    requires n > 0
    ensures FanAfterTaps(ui.lastFanSpeed, n) == FanAfterTaps(Handle(ui, FanSpeedClick).ui.lastFanSpeed, n - 1)
    ensures |Handle(ui, FanSpeedClick).sent| == 1
    ensures Handle(ui, FanSpeedClick).sent[0].fan == Handle(ui, FanSpeedClick).ui.lastFanSpeed
  {
  }

  /** `n` clicks on the fan widget leave the speed `n` taps on and send one
      message per click, each carrying the speed it just set */
  lemma {:induction false} FanClicks(ui: Ui, n: nat)
    ensures Clickable(ui, Clicks(FanSpeedClick, n))
    ensures Run(ui, Clicks(FanSpeedClick, n)).lastFanSpeed == FanAfterTaps(ui.lastFanSpeed, n)
    ensures |Sent(ui, Clicks(FanSpeedClick, n))| == n
    ensures n > 0 ==> Sent(ui, Clicks(FanSpeedClick, n))[n - 1].fan == FanAfterTaps(ui.lastFanSpeed, n)
    decreases n
  {
    if n > 0 {
      ClickStep(ui, FanSpeedClick, n);
      FanClickTaps(ui, n);
      FanClicks(Handle(ui, FanSpeedClick).ui, n - 1);
    }
  }

  /** Four clicks on the fan widget from any speed 1..4 come back to it,
      publishing four times */
  lemma FourFanClicksCloseTheCycle(ui: Ui)
    requires ui.lastFanSpeed.Some? && 1 <= ui.lastFanSpeed.value <= 4
    ensures Run(ui, Clicks(FanSpeedClick, 4)).lastFanSpeed == ui.lastFanSpeed
    ensures |Sent(ui, Clicks(FanSpeedClick, 4))| == 4
  {
    FanClicks(ui, 4);
    FanCycleCloses(ui.lastFanSpeed.value);
  }

  /** One airflow click is one tap: `n` taps from before the click are `n - 1`
      taps from after it, and the click sends one message */
  lemma AirflowClickTaps(ui: Ui, n: nat)
    requires n > 0
    ensures AirflowAfterTaps(ui.lastAirflow, n) == AirflowAfterTaps(Handle(ui, AirflowClick).ui.lastAirflow, n - 1)
    ensures |Handle(ui, AirflowClick).sent| == 1
  {
    var next := NextAirflow(ui.lastAirflow);
    assert Handle(ui, AirflowClick).ui.lastAirflow == (if next.Some? then next else ui.lastAirflow);
  }

  /** `n` clicks on the airflow widget leave the value `n` taps on, and send
      one message per click, even where the value is outside the cycle */
  lemma {:induction false} AirflowClicks(ui: Ui, n: nat)
    ensures Clickable(ui, Clicks(AirflowClick, n))
    ensures Run(ui, Clicks(AirflowClick, n)).lastAirflow == AirflowAfterTaps(ui.lastAirflow, n)
    ensures |Sent(ui, Clicks(AirflowClick, n))| == n
    decreases n
  {
    if n > 0 {
      ClickStep(ui, AirflowClick, n);
      AirflowClickTaps(ui, n);
      AirflowClicks(Handle(ui, AirflowClick).ui, n - 1);
    }
  }

  /** Eight clicks on the airflow widget from `open` come back to `open` */
  lemma EightAirflowClicksCloseTheCycle(ui: Ui)
    requires ui.lastAirflow == Some("open")
    ensures Run(ui, Clicks(AirflowClick, 8)).lastAirflow == Some("open")
    ensures |Sent(ui, Clicks(AirflowClick, 8))| == 8
  {
    AirflowClicks(ui, 8);
    AirflowCycleCloses();
  }

  /** From a value outside the cycle, airflow clicks change nothing but still
      publish once each */
  lemma AirflowClicksOutsideCycle(ui: Ui, n: nat)
    requires ui.lastAirflow.None? || ui.lastAirflow.value !in AirflowCycle
    ensures Run(ui, Clicks(AirflowClick, n)).lastAirflow == ui.lastAirflow
    ensures |Sent(ui, Clicks(AirflowClick, n))| == n
  {
    AirflowClicks(ui, n);
    AirflowTapsOutsideCycle(ui.lastAirflow, n);
  }

  /** A server message that rendered without fault is exactly what the next
      publish sends back, as long as its power state is "on" or "off" and its
      mode has a button (or is `auto`) */
  lemma MessageRoundTrip(ui: Ui, m: StateMessage)
    requires m.state == "on" || m.state == "off"
    requires m.mode in ui.modeButtons || m.mode == "auto"
    requires m.airflow.Some? || ui.lastAirflow.None?
    ensures OnMessage(ui, m).fault == None
    ensures PublishState(OnMessage(ui, m).ui) == m
  {
  }

  /** The server pushes power on, mode cool, 22 degrees, fan 3 and direction
      2: the page shows exactly that, with rings 0..3 and only direction 2,
      runs no fan pulse, and sends nothing */
  lemma CoolMessageShown(ui: Ui)
    requires Wf(ui)
    requires "cool" in ui.modeButtons
    ensures var r := OnMessage(ui, StateMessage("on", "cool", "22", Some(3), Some("dir_2")));
      && r.sent == [] && r.fault == None
      && r.ui.temperature == "22" && r.ui.activeMode == Some("cool") && Power in r.ui.lit
      && r.ui.lastFanSpeed == Some(3) && r.ui.lastAirflow == Some("dir_2")
      && r.ui.lit * Rings == {Ring(0), Ring(1), Ring(2), Ring(3)}
      && r.ui.lit * Dirs == {Dir(2)}
      && FanTimer(r.ui).None? && AirflowTimer(r.ui).None?
  {
    var m := StateMessage("on", "cool", "22", Some(3), Some("dir_2"));
    var r := OnMessage(ui, m);
    HandleWf(ui, Message(m));
    assert TimersMatchTargets(r.ui);
    assert RingsUpTo(3) == {Ring(0), Ring(1), Ring(2), Ring(3)} by {
      assert forall x | x in RingsUpTo(3) :: x in {Ring(0), Ring(1), Ring(2), Ring(3)};
    }
    assert DirLamp("dir_2") == {Dir(2)} by {
      assert "dir_2" == DirName(2);
    }
  }

  /** Speed 4 then speed 2: the pulse is stopped and no fan interval runs any
      more, and the static level shows rings 0..2, so ring 1 stays lit */
  lemma MaxThenLowerStopsPulse(ui: Ui)
    requires Wf(ui)
    ensures var r := SetFanSpeed(SetFanSpeed(ui, Some(4)), Some(2));
      && FanTimer(r).None?
      && LiveCount(r.intervals, FanFamily) == 0
      && r.lit * Rings == {Ring(0), Ring(1), Ring(2)}
  {
    var m := SetFanSpeed(ui, Some(4));
    var r := SetFanSpeed(m, Some(2));
    SetFanSpeedWf(ui, Some(4));
    SetFanSpeedWf(m, Some(2));
    SingleTimerPerFamily(r);
    assert RingsUpTo(2) == {Ring(0), Ring(1), Ring(2)} by {
      assert forall x | x in RingsUpTo(2) :: x in {Ring(0), Ring(1), Ring(2)};
    }
  }

  /** `change` then `open`: one airflow interval runs, the `open` one, and a
      tick of the `change` interval that was cleared does nothing */
  lemma ChangeThenOpenLeavesOneTimer(ui: Ui)
    requires Wf(ui)
    ensures var c := SetAirflow(ui, Some("change")).value;
      var o := SetAirflow(c, Some("open")).value;
      && AirflowTimer(o) == Some(AirflowOpen)
      && LiveCount(o.intervals, AirflowFamily) == 1
      && Fire(o, c.airflowChange.value) == o
  {
    var c := SetAirflow(ui, Some("change")).value;
    SetAirflowWf(ui, Some("change"));
    var o := SetAirflow(c, Some("open")).value;
    SetAirflowWf(c, Some("open"));
    SingleTimerPerFamily(o);
  }

  /** Leaving `open` for a direction stops the animation and shows that
      direction, but does not darken `boost`: a boost lit by the breathing
      stays lit */
  lemma BoostOutlivesOpen(ui: Ui)
    requires Wf(ui)
    requires ui.lastAirflow == Some("open") && Boost in ui.lit
    ensures var r := SetAirflow(ui, Some("dir_3")).value;
      && Boost in r.lit
      && AirflowTimer(r).None?
      && r.lit * Dirs == {Dir(3)}
  {
  }
}

=== FILE: timers.dfy ===
/** The browser's interval timers (`setInterval` / `clearInterval`) as a
    registry: every interval ever armed keeps its slot, and its handle is the
    slot's index. Clearing marks a slot dead; a dead interval never fires
    again. The real 1000 ms cadence is not modelled: a tick is an event. */
module Timers {
  import opened Wrappers

  /** The three interval callbacks the panel arms */
  datatype Callback = FanPulse | AirflowChange | AirflowOpen

  /** The indicator family an interval animates */
  datatype Family = FanFamily | AirflowFamily

  function FamilyOf(c: Callback): Family
  {
    if c == FanPulse then FanFamily else AirflowFamily
  }

  datatype Interval = Interval(callback: Callback, live: bool)

  type Registry = seq<Interval>

  /** Arms a new interval running `c`; its handle is the returned index */
  function SetInterval(reg: Registry, c: Callback): (res: (Registry, nat))
    ensures |res.0| == |reg| + 1 && res.1 == |reg|
    ensures res.0[res.1] == Interval(c, true)
    ensures forall i :: 0 <= i < |reg| ==> res.0[i] == reg[i]
  {
    (reg + [Interval(c, true)], |reg|)
  }

  /** Stops the interval behind handle `h`; an absent or unknown handle is
      ignored, as the browser ignores it */
  function ClearInterval(reg: Registry, h: Option<nat>): (res: Registry)
    ensures |res| == |reg|
    ensures forall i :: 0 <= i < |reg| ==>
      res[i].callback == reg[i].callback && (res[i].live <==> reg[i].live && h != Some(i))
  {
    match h
    case None => reg
    case Some(i) => if i < |reg| then reg[i := reg[i].(live := false)] else reg
  }

  /** `after` still holds every interval of `before` except possibly the one
      behind `h`: a render that clears only its own handle, and may arm new
      intervals, leaves every other interval as it was */
  predicate KeepsAllBut(before: Registry, after: Registry, h: Option<nat>)
  {
    && |after| >= |before|
    && forall i :: 0 <= i < |before| && Some(i) != h ==> after[i] == before[i]
  }

  /** The callback of the interval behind `h`, if that interval is still running */
  function Armed(reg: Registry, h: Option<nat>): Option<Callback>
  {
    if h.Some? && h.value < |reg| && reg[h.value].live then Some(reg[h.value].callback) else None
  }

  /** How many intervals of family `f` are running */
  function LiveCount(reg: Registry, f: Family): nat
  {
    if |reg| == 0 then 0
    else LiveCount(reg[..|reg| - 1], f) + (if reg[|reg| - 1].live && FamilyOf(reg[|reg| - 1].callback) == f then 1 else 0)
  }

  /** Handle `h` is either unset or names an interval of family `f` */
  predicate HandleOf(reg: Registry, f: Family, h: Option<nat>)
  {
    h.Some? ==> h.value < |reg| && FamilyOf(reg[h.value].callback) == f
  }

  /** The only running interval of family `f`, if any, is the one behind `h`:
      the discipline "clear the family's handle before arming a new one" */
  predicate OnlyLiveAt(reg: Registry, f: Family, h: Option<nat>)
  {
    forall i :: 0 <= i < |reg| && reg[i].live && FamilyOf(reg[i].callback) == f ==> h == Some(i)
  }

  /** When all running intervals of `f` sit behind `h`, exactly the interval
      `h` names is running for that family: there is at most one */
  lemma {:induction false} SingleTimer(reg: Registry, f: Family, h: Option<nat>)
    requires HandleOf(reg, f, h)
    requires OnlyLiveAt(reg, f, h)
    ensures LiveCount(reg, f) == (if Armed(reg, h).Some? then 1 else 0)
    ensures LiveCount(reg, f) <= 1
    decreases |reg|
  {
    if |reg| > 0 {
      var n := |reg| - 1;
      var pre := reg[..n];
      var h' := if h == Some(n) then None else h;
      assert HandleOf(pre, f, h');
      assert OnlyLiveAt(pre, f, h') by {
        forall i | 0 <= i < |pre| && pre[i].live && FamilyOf(pre[i].callback) == f
          ensures h' == Some(i)
        {
          assert reg[i] == pre[i];
        }
      }
      SingleTimer(pre, f, h');
      if h' != h {
        assert Armed(pre, h') == None;
      } else if h.Some? {
        assert pre[h.value] == reg[h.value];
      }
    }
  }
}

=== FILE: wrappers.dfy ===
/** The option and result types used across the model: JavaScript's `null`
    becomes `None`, and a thrown exception becomes a `Failure`. */
module Wrappers {

  datatype Option<+T> = None | Some(value: T) {

    /** The wrapped value, or `default` when there is none */
    function GetOr(default: T): T
    {
      match this
      case Some(v) => v
      case None => default
    }
  }

  datatype Result<+R, +E> = Success(value: R) | Failure(error: E)
}
